=== FILE: README.md ===
# Dispatcher start-up of the bearded API host

This project models, in Dafny, the start-up logic of the `dispatcher` command
of bearded: how it composes its nine business services into one go-restful
container, and how it assembles the request pipeline around that container.
The libraries it calls (mgo, go-restful, negroni, the cli package) and the
services themselves are black boxes. What is modelled is what the dispatcher
itself decides: the order of the calls it makes and when start-up stops.

- `services.dfy` (`Services`): the nine services and their fixed order
  (auth, plugin, plan, user, project, target, scan, me, agent), an opaque
  `Error`, and `Outcome`, whose `Ok` stands for Go's `nil` error and whose
  `Err` carries a non-nil one.
- `lifecycle.dfy` (`Lifecycle`): `initServices` as a pure function. It takes an
  outcome oracle: the manager's `Init` outcome plus one `Outcome` per
  service. It returns a `Run`, which is the trace of calls
  (`MgrInit`, `Init(s)`, `Register(s)`) and the returned error. The model is
  two-phase and fail-fast: all `Init` calls come first, the first error aborts,
  and `Register` runs on every service only when every `Init` succeeded.
- `pipeline.dfy` (`Pipeline`): the container filters and the negroni middleware
  stack. `Chain` gives the stack as written. `ChainSpec` is an independent
  description of it, and `ChainIsUnique` proves that `Chain` is the only stack
  meeting that description.
- `dispatcher.dfy` (`Dispatcher`): `dispatcherAction` as a trace of start-up
  steps. The inputs are the flags and the outcomes of `initServices` and of the
  agent start. The steps are, in order:
  - add the session-cookie filter, then the mongo filter;
  - disable the container's own recovery;
  - the `initServices` calls;
  - a panic if `initServices` fails;
  - otherwise: Swagger generation unless disabled, the negroni `Use` calls, the
    optional agent start (a failure is only logged), and the listener.

  `StartupOrdered` proves that the phases of every trace never interleave.

In debug mode the logger is `Use`d before recovery
(cmd/dispatcher/dispatcher.go:186-193), so the logger, not recovery, is the
outermost stage (`Pipeline.RecoveryOutermostOnlyWhenQuiet`). The session
filter is added before the mongo filter (cmd/dispatcher/dispatcher.go:163-165).

## Model

| member | source | states |
|---|---|---|
| `Services.AllServicesComplete` | cmd/dispatcher/dispatcher.go:89-99 | the service list has nine entries, every service appears in it, and none appears twice |
| `Lifecycle.FirstFailure` | cmd/dispatcher/dispatcher.go:102-106 | the index it returns names a failing `Init`, and every earlier `Init` succeeded |
| `Lifecycle.InitLoop` | cmd/dispatcher/dispatcher.go:101-106 | the loop returns nil exactly when every `Init` succeeds, and then it has called `Init` on every service in order; otherwise it returns the first failure's error, having called `Init` only on the services up to and including the failing one |
| `Lifecycle.RegisterLoop` | cmd/dispatcher/dispatcher.go:107-110 | the loop calls `Register` once on each service, in list order |
| `Lifecycle.Compose` | cmd/dispatcher/dispatcher.go:75-113 | the manager's `Init` is always the first call, and the error is nil exactly when the manager and all services initialised |
| `Lifecycle.InitServices` | cmd/dispatcher/dispatcher.go:75-113 | the same two facts for the nine services in their fixed order |
| `Lifecycle.ComposeTrace` | cmd/dispatcher/dispatcher.go:75-112 | the complete trace for each outcome, over any service list: manager alone; `Init` up to the first failure; or all `Init` calls followed by all `Register` calls |
| `Lifecycle.InitServicesTrace` | cmd/dispatcher/dispatcher.go:75-112 | the complete trace for each outcome, over the nine services |
| `Lifecycle.InitPositions` | cmd/dispatcher/dispatcher.go:101-106 | over any service list, an `Init` at trace position i is on the i-th service, and never beyond the first failing one |
| `Lifecycle.ManagerFailureAborts` | cmd/dispatcher/dispatcher.go:77-80 | a failing manager `Init` is returned, and no service `Init` or `Register` happens |
| `Lifecycle.InitFollowsFixedOrder` | cmd/dispatcher/dispatcher.go:89-106 | service `Init` calls follow the order auth, plugin, …, agent, and no service after the first failing one is initialised |
| `Lifecycle.FirstErrorWins` | cmd/dispatcher/dispatcher.go:75-106 | the error returned is nil exactly on full success; otherwise it is the manager's error if that failed, or else the first failing service's error |
| `Lifecycle.CountCalls` | cmd/dispatcher/dispatcher.go:101-110 | over distinct services, each listed service gets exactly one `Init` (or one `Register`) and each unlisted service gets none |
| `Lifecycle.RegisterOnlyAfterFullInit` | cmd/dispatcher/dispatcher.go:101-112 | `Register(s)` occurs exactly when every `Init` succeeded, and then each service gets exactly one `Init` and exactly one `Register` |
| `Lifecycle.RegistersLast` | cmd/dispatcher/dispatcher.go:101-110 | over any service list, every non-`Register` call comes before every `Register` call |
| `Lifecycle.InitsPrecedeRegisters` | cmd/dispatcher/dispatcher.go:101-110 | in every `initServices` trace, the manager and all `Init` calls come before every `Register` |
| `Pipeline.ContainerFilters` | cmd/dispatcher/dispatcher.go:154-165 | two filters: first the session filter (cookie `bearded-sss` on `/api/`, HttpOnly, not Secure, two 32-byte keys), then the mongo filter |
| `Pipeline.Chain` | cmd/dispatcher/dispatcher.go:182-202 | the stack meets `ChainSpec`. The stages are ordered logger, recovery, static, container. The logger is present iff debug. Recovery is always present and prints stacks iff debug. Static serves the frontend directory iff the frontend is on. The container is always present |
| `Pipeline.RankSortedUnique` | cmd/dispatcher/dispatcher.go:186-202 | two stacks in stage order with the same stages are equal |
| `Pipeline.ChainIsUnique` | cmd/dispatcher/dispatcher.go:182-202 | a stack meets `ChainSpec` if and only if it is the stack the code builds |
| `Pipeline.RecoveryOutermostOnlyWhenQuiet` | cmd/dispatcher/dispatcher.go:186-193 | recovery is the outermost stage exactly when debug is off, and the container is always innermost |
| `Dispatcher.AgentSteps` | cmd/dispatcher/dispatcher.go:204-208 | the agent is started once, as the first agent step, iff `with-agent` is set; an error is logged, after the start and at most once, iff it was started and failed |
| `Dispatcher.DispatcherAction` | cmd/dispatcher/dispatcher.go:150-214 | the trace starts with the session filter and then the mongo filter. It ends with the listener on `bind-addr` when `initServices` succeeds, and otherwise with a panic carrying its error |
| `Dispatcher.StartupOrdered` | cmd/dispatcher/dispatcher.go:150-214 | every trace runs its phases in order without interleaving: filters, container settings, services, Swagger, middleware, agent, then listen or panic |
| `Dispatcher.FiltersBeforeServices` | cmd/dispatcher/dispatcher.go:154-169 | the session filter comes first and the mongo filter second. No other filter is added. Both come before every `initServices` call, so before any `Register` |
| `Dispatcher.ServiceCallsRecorded` | cmd/dispatcher/dispatcher.go:169-172 | the service-call steps of the start-up trace are exactly the calls `initServices` makes, in its order, so the filter and Swagger orderings speak about real calls |
| `Dispatcher.SwaggerAfterRegistration` | cmd/dispatcher/dispatcher.go:168-180 | Swagger runs, with the configured paths, iff `initServices` returned nil and Swagger is not disabled, and then exactly once. It runs after every service call |
| `Dispatcher.InitErrorPanics` | cmd/dispatcher/dispatcher.go:168-172 | an `initServices` error ends the trace with a panic carrying that error. Nothing from Swagger onward happens |
| `Dispatcher.MiddlewareStack` | cmd/dispatcher/dispatcher.go:182-202 | after a successful `initServices`, the stages installed meet `ChainSpec`. After a failed one, no stage is installed |
| `Dispatcher.AgentOnlyWhenAsked` | cmd/dispatcher/dispatcher.go:202-208 | the agent starts iff `initServices` succeeded and `with-agent` is set, and then exactly once. It starts only after every middleware stage is installed |
| `Dispatcher.ListensDespiteAgentFailure` | cmd/dispatcher/dispatcher.go:204-214 | the server listens, on `bind-addr` and as the last step, iff `initServices` succeeded, whatever the agent's outcome |
| `Dispatcher.AgentFailureOnlyLogged` | cmd/dispatcher/dispatcher.go:204-208 | an agent start error is logged iff the agent was started and failed, and after a successful `initServices` the last step is still the listener on `bind-addr` |

## Left out

- The mongo dial, its panic on failure and the deferred `Close`
  (cmd/dispatcher/dispatcher.go:128-138), and the `session.DB` lookup passed to
  `initServices` (cmd/dispatcher/dispatcher.go:169), are storage I/O. The model
  starts once the session is open.
- Flag definitions, defaults, environment variables and `swaggerFlags` are the
  cli library's work. The flags are given as a parsed `Flags` value.
- The debug-mode restful trace logger, the CurlyRouter choice and all logging
  except the agent-start error (cmd/dispatcher/dispatcher.go:206) are
  diagnostic or library configuration. They are not start-up steps; the
  agent-start error is the `LogAgentError` step.
- `manager.New`, `passlib.NewContext`, the memory scheduler, `services.New`
  and the nine service constructors `auth.New(base)` … `agent.New(base)`
  (cmd/dispatcher/dispatcher.go:77-99) are constructors with no outcome the
  dispatcher checks, so they are not trace events; the slice they build is
  `AllServices`.
- Cookie signing and encryption, the mongo filter's per-request session copy,
  and the body of `RunInternalAgent` are not part of this model. Filters
  appear only with their configuration.
- negroni and go-restful internals are library behaviour, as are the meaning of
  `DoNotRecover`, routing, panic handling and static file serving. Only the
  order of stages and their flags is kept.
- `ListenAndServe` and `logrus.Fatal` are I/O and process exit. The trace ends
  at `Listen`.
- Per-request concurrency and resource release are not determined by this file.
- The services' own `Init` and `Register` are external. `Init` outcomes are
  oracle inputs, and `Register` cannot fail, as in the source.

=== FILE: dispatcher.dfy ===
/**
 * `dispatcherAction`: the start-up sequence of the API host. It installs the
 * container filters, composes the services, generates the Swagger description,
 * assembles the negroni stack, optionally starts the in-process agent and finally
 * listens. Each call into a collaborator is one step of a trace; the outcomes of
 * the calls that can fail are inputs.
 */
module Dispatcher {
  import opened Services
  import opened Lifecycle
  import opened Pipeline

  /** Where the Swagger collaborator writes and serves the API description. */
  datatype SwaggerOpts = SwaggerOpts(apiPath: string, path: string, filePath: string)

  /** The command-line settings `dispatcherAction` reads, already parsed. */
  datatype Flags = Flags(
    debug: bool,
    bindAddr: string,
    frontend: string,
    frontendOff: bool,
    withAgent: bool,
    swaggerDisabled: bool,
    swagger: SwaggerOpts)

  /** One observable step of the start-up sequence. */
  datatype Step =
    | AddFilter(f: Filter)
    | DisableContainerRecovery
    | ServiceCall(e: Event)
    | GenerateSwagger(opts: SwaggerOpts)
    | Use(m: Middleware)
    | StartAgent
    | LogAgentError(err: Error)
    | Listen(addr: string)
    | Panic(err: Error)

  /** The `initServices` calls, as start-up steps. */
  function Calls(t: seq<Event>): seq<Step>
  {
    seq(|t|, i requires 0 <= i < |t| => ServiceCall(t[i]))
  }

  /** The negroni `Use` calls installing the stages of `c`, outermost first. */
  function Uses(c: seq<Middleware>): seq<Step>
  {
    seq(|c|, i requires 0 <= i < |c| => Use(c[i]))
  }

  /** Installing the filters and turning off the container's own recovery. */
  const SetupSteps: seq<Step> :=
    [AddFilter(ContainerFilters()[0]), AddFilter(ContainerFilters()[1]), DisableContainerRecovery]

  /** Starting the agent, when asked to: a failure is only logged. */
  function AgentSteps(withAgent: bool, agentErr: Outcome): (t: seq<Step>)
    ensures StartAgent in t <==> withAgent
    ensures forall i :: 0 <= i < |t| ==> t[i].StartAgent? || t[i].LogAgentError?
    ensures forall e :: LogAgentError(e) in t <==> withAgent && agentErr == Err(e)
    ensures |t| <= 2 && (withAgent ==> t[0] == StartAgent)
    ensures withAgent ==> StartAgent !in t[1..]
  {
    if !withAgent then []
    else if agentErr.Err? then [StartAgent, LogAgentError(agentErr.error)]
    else [StartAgent]
  }

  /** Generating the Swagger description, unless it is disabled. */
  function SwaggerSteps(flags: Flags): seq<Step>
  {
    if flags.swaggerDisabled then [] else [GenerateSwagger(flags.swagger)]
  }

  /** What follows Swagger generation: the negroni stack, the agent and the listener. */
  function AfterSwagger(flags: Flags, agentErr: Outcome): seq<Step>
  {
    Uses(Chain(flags.debug, flags.frontendOff, flags.frontend))
    + AgentSteps(flags.withAgent, agentErr)
    + [Listen(flags.bindAddr)]
  }

  /** What follows a successful `initServices`: Swagger, the stack, the agent, the listener. */
  function ServeSteps(flags: Flags, agentErr: Outcome): seq<Step>
  {
    SwaggerSteps(flags) + AfterSwagger(flags, agentErr)
  }

  /** The start-up sequence around a given run of `initServices`, whose error panics. */
  function Startup(flags: Flags, run: Run, agentErr: Outcome): seq<Step>
  {
    SetupSteps + Calls(run.trace)
    + (match run.err
       case Err(e) => [Panic(e)]
       case Ok => ServeSteps(flags, agentErr))
  }

  /**
   * `dispatcherAction` after the database session is open: filters, then
   * `initServices`, whose error panics; otherwise Swagger unless disabled, the
   * negroni stack, the optional agent, and the listener.
   */
  function DispatcherAction(flags: Flags, mgrErr: Outcome, outcomes: seq<Outcome>,
                            agentErr: Outcome): (t: seq<Step>)
    requires |outcomes| == |AllServices|
    ensures |t| > 3 && t[..2] == [AddFilter(SessionFilter), AddFilter(MongoScope)]
    ensures t[|t| - 1] == (if Composes(mgrErr, outcomes) then Listen(flags.bindAddr)
                           else Panic(InitServices(mgrErr, outcomes).err.error))
  {
    var run := InitServices(mgrErr, outcomes);
    StartupEnds(flags, run, agentErr);
    Startup(flags, run, agentErr)
  }

  /** Every start-up trace opens with the two filters and ends in the listener or the panic. */
  lemma StartupEnds(flags: Flags, run: Run, agentErr: Outcome)
    ensures var t := Startup(flags, run, agentErr);
            && |t| > 3 && t[..2] == [AddFilter(SessionFilter), AddFilter(MongoScope)]
            && t[|t| - 1] == (if run.err.Ok? then Listen(flags.bindAddr) else Panic(run.err.error))
  {
  }

  /** The stages a trace installs, in installation order. */
  function Stages(t: seq<Step>): seq<Middleware>
  {
    if |t| == 0 then []
    else if t[0].Use? then [t[0].m] + Stages(t[1..])
    else Stages(t[1..])
  }

  /** The start-up phase a step belongs to; phases never interleave. */
  function Phase(s: Step): nat
  {
    match s
    case AddFilter(_) => 0
    case DisableContainerRecovery => 1
    case ServiceCall(_) => 2
    case GenerateSwagger(_) => 3
    case Use(_) => 4
    case StartAgent => 5
    case LogAgentError(_) => 5
    case Listen(_) => 6
    case Panic(_) => 6
  }

  /** Phases are non-decreasing along `t`. */
  predicate PhaseOrdered(t: seq<Step>)
  {
    forall i, j :: 0 <= i <= j < |t| ==> Phase(t[i]) <= Phase(t[j])
  }

  /** Every step of `t` is in a phase between `lo` and `hi`. */
  predicate PhasesWithin(t: seq<Step>, lo: nat, hi: nat)
  {
    forall i :: 0 <= i < |t| ==> lo <= Phase(t[i]) <= hi
  }

  /** Two ordered segments, the first in phases up to `k`, the second from `k` on, make an ordered trace. */
  lemma OrderedAppend(a: seq<Step>, b: seq<Step>, lo: nat, k: nat, hi: nat)
    requires lo <= k <= hi
    requires PhaseOrdered(a) && PhasesWithin(a, lo, k)
    requires PhaseOrdered(b) && PhasesWithin(b, k, hi)
    ensures PhaseOrdered(a + b) && PhasesWithin(a + b, lo, hi)
  {
    forall i, j | 0 <= i <= j < |a + b| ensures Phase((a + b)[i]) <= Phase((a + b)[j]) {
      if j < |a| {
      } else if i >= |a| {
        assert (a + b)[i] == b[i - |a|] && (a + b)[j] == b[j - |a|];
      } else {
        assert (a + b)[i] == a[i] && (a + b)[j] == b[j - |a|];
      }
    }
    forall i | 0 <= i < |a + b| ensures lo <= Phase((a + b)[i]) <= hi {
      if i >= |a| {
        assert (a + b)[i] == b[i - |a|];
      }
    }
  }

  /** A stack installation is all in the `Use` phase. */
  lemma UsesOrdered(c: seq<Middleware>)
    ensures PhaseOrdered(Uses(c)) && PhasesWithin(Uses(c), 4, 4)
  {
  }

  /** The agent steps are all in the agent phase. */
  lemma AgentStepsOrdered(withAgent: bool, agentErr: Outcome)
    ensures PhaseOrdered(AgentSteps(withAgent, agentErr)) && PhasesWithin(AgentSteps(withAgent, agentErr), 5, 5)
  {
  }

  /** The steps after Swagger generation lie in phases 4 to 6, in order. */
  lemma AfterSwaggerOrdered(flags: Flags, agentErr: Outcome)
    ensures PhaseOrdered(AfterSwagger(flags, agentErr)) && PhasesWithin(AfterSwagger(flags, agentErr), 4, 6)
  {
    var uses := Uses(Chain(flags.debug, flags.frontendOff, flags.frontend));
    var agent := AgentSteps(flags.withAgent, agentErr);
    UsesOrdered(Chain(flags.debug, flags.frontendOff, flags.frontend));
    AgentStepsOrdered(flags.withAgent, agentErr);
    OrderedAppend(uses, agent, 4, 4, 5);
    OrderedAppend(uses + agent, [Listen(flags.bindAddr)], 4, 5, 6);
  }

  /** The serving tail of the start-up is phase-ordered. */
  lemma ServeStepsOrdered(flags: Flags, agentErr: Outcome)
    ensures PhaseOrdered(ServeSteps(flags, agentErr)) && PhasesWithin(ServeSteps(flags, agentErr), 3, 6)
  {
    AfterSwaggerOrdered(flags, agentErr);
    OrderedAppend(SwaggerSteps(flags), AfterSwagger(flags, agentErr), 3, 3, 6);
  }

  /** Property: every start-up trace runs its phases in order, never interleaving them. */
  lemma StartupOrdered(flags: Flags, run: Run, agentErr: Outcome)
    ensures PhaseOrdered(Startup(flags, run, agentErr))
    ensures PhasesWithin(Startup(flags, run, agentErr), 0, 6)
  {
    var calls := Calls(run.trace);
    OrderedAppend(SetupSteps, calls, 0, 1, 2);
    match run.err
    case Err(e) =>
      OrderedAppend(SetupSteps + calls, [Panic(e)], 0, 2, 6);
    case Ok =>
      ServeStepsOrdered(flags, agentErr);
      OrderedAppend(SetupSteps + calls, ServeSteps(flags, agentErr), 0, 2, 6);
  }

  /** Start-up steps before the `initServices` outcome is known: phases 0 to 2 only. */
  lemma ComposedWithin(run: Run)
    ensures PhasesWithin(SetupSteps + Calls(run.trace), 0, 2)
    ensures PhaseOrdered(SetupSteps + Calls(run.trace))
  {
    OrderedAppend(SetupSteps, Calls(run.trace), 0, 1, 2);
  }

  /** A step outside a segment's phases does not occur in it. */
  lemma NotIn(t: seq<Step>, s: Step, lo: nat, hi: nat)
    requires PhasesWithin(t, lo, hi)
    requires Phase(s) < lo || hi < Phase(s)
    ensures s !in t
  {
  }

  /**
   * Property: the session cookie filter is added first and the mongo filter second,
   * no other filter is added, and both precede every `initServices` call — in
   * particular every `Register`.
   */
  lemma FiltersBeforeServices(flags: Flags, mgrErr: Outcome, outcomes: seq<Outcome>, agentErr: Outcome)
    requires |outcomes| == |AllServices|
    ensures var t := DispatcherAction(flags, mgrErr, outcomes, agentErr);
            && t[0] == AddFilter(SessionCookie("bearded-sss", CookieOpts("/api/", true, false), HashKey, EncKey))
            && t[1] == AddFilter(MongoScope)
            && (forall i :: 0 <= i < |t| && t[i].AddFilter? ==> i < 2)
            && (forall i :: 0 <= i < |t| && t[i].ServiceCall? ==> 2 < i)
  {
    var run := InitServices(mgrErr, outcomes);
    var t := Startup(flags, run, agentErr);
    StartupOrdered(flags, run, agentErr);
    assert t[2] == DisableContainerRecovery;
    assert forall i :: 2 <= i < |t| ==> Phase(t[2]) <= Phase(t[i]);
    assert forall i :: 0 <= i <= 2 ==> Phase(t[i]) <= Phase(t[2]);
  }

  /** Property: Swagger is generated, with the configured paths, exactly when the run succeeded and it is enabled. */
  lemma StartupSwagger(flags: Flags, run: Run, agentErr: Outcome)
    ensures forall o :: (GenerateSwagger(o) in Startup(flags, run, agentErr) <==>
                           run.err.Ok? && !flags.swaggerDisabled && o == flags.swagger)
  {
    var prefix := SetupSteps + Calls(run.trace);
    ComposedWithin(run);
    AfterSwaggerOrdered(flags, agentErr);
    forall o ensures GenerateSwagger(o) !in prefix && GenerateSwagger(o) !in AfterSwagger(flags, agentErr) {
      NotIn(prefix, GenerateSwagger(o), 0, 2);
      NotIn(AfterSwagger(flags, agentErr), GenerateSwagger(o), 4, 6);
    }
  }

  /** The serving tail generates Swagger once, with the configured paths, unless it is disabled. */
  lemma ServeSwaggerCount(flags: Flags, agentErr: Outcome)
    ensures multiset(ServeSteps(flags, agentErr))[GenerateSwagger(flags.swagger)] == (if flags.swaggerDisabled then 0 else 1)
  {
    var g := GenerateSwagger(flags.swagger);
    AfterSwaggerOrdered(flags, agentErr);
    NotIn(AfterSwagger(flags, agentErr), g, 4, 6);
    CountBefore(SwaggerSteps(flags), AfterSwagger(flags, agentErr), g);
  }

  /** A start-up trace generates Swagger once after a successful run with Swagger enabled, and never otherwise. */
  lemma StartupSwaggerCount(flags: Flags, run: Run, agentErr: Outcome)
    ensures multiset(Startup(flags, run, agentErr))[GenerateSwagger(flags.swagger)]
              == (if run.err.Ok? && !flags.swaggerDisabled then 1 else 0)
  {
    var g := GenerateSwagger(flags.swagger);
    var prefix := SetupSteps + Calls(run.trace);
    ComposedWithin(run);
    NotIn(prefix, g, 0, 2);
    match run.err
    case Err(e) =>
      CountAfter(prefix, [Panic(e)], g);
    case Ok =>
      CountAfter(prefix, ServeSteps(flags, agentErr), g);
      ServeSwaggerCount(flags, agentErr);
  }

  /** In a phase-ordered trace, a step of an earlier phase comes earlier. */
  lemma PhaseBefore(t: seq<Step>, i: nat, j: nat)
    requires PhaseOrdered(t) && i < |t| && j < |t|
    requires Phase(t[i]) < Phase(t[j])
    ensures i < j
  {
  }

  /** Swagger generation in `t` follows every `initServices` call. */
  predicate CallsBeforeSwagger(t: seq<Step>)
  {
    forall i, j :: 0 <= i < |t| && 0 <= j < |t| && t[i].ServiceCall? && t[j].GenerateSwagger? ==> i < j
  }

  /** In every start-up trace, Swagger generation follows every `initServices` call. */
  lemma StartupSwaggerAfterCalls(flags: Flags, run: Run, agentErr: Outcome)
    ensures var t := Startup(flags, run, agentErr);
            CallsBeforeSwagger(t)
  {
    var t := Startup(flags, run, agentErr);
    StartupOrdered(flags, run, agentErr);
    forall i, j | 0 <= i < |t| && 0 <= j < |t| && t[i].ServiceCall? && t[j].GenerateSwagger? ensures i < j {
      PhaseBefore(t, i, j);
    }
  }

  /**
   * Property: Swagger is generated, once, exactly when `initServices` returned nil and
   * Swagger is not disabled, with the configured paths, and only after every
   * `initServices` call, so it sees the final route set.
   */
  lemma SwaggerAfterRegistration(flags: Flags, mgrErr: Outcome, outcomes: seq<Outcome>, agentErr: Outcome)
    requires |outcomes| == |AllServices|
    ensures var t := DispatcherAction(flags, mgrErr, outcomes, agentErr);
            && (forall o :: GenerateSwagger(o) in t
                  <==> Composes(mgrErr, outcomes) && !flags.swaggerDisabled && o == flags.swagger)
            && multiset(t)[GenerateSwagger(flags.swagger)]
                 == (if Composes(mgrErr, outcomes) && !flags.swaggerDisabled then 1 else 0)
            && CallsBeforeSwagger(t)
  {
    var run := InitServices(mgrErr, outcomes);
    var t := DispatcherAction(flags, mgrErr, outcomes, agentErr);
    assert t == Startup(flags, run, agentErr);
    StartupSwagger(flags, run, agentErr);
    StartupSwaggerCount(flags, run, agentErr);
    StartupSwaggerAfterCalls(flags, run, agentErr);
  }

  /** `Stages` distributes over concatenation. */
  lemma {:induction false} StagesAppend(a: seq<Step>, b: seq<Step>)
    ensures Stages(a + b) == Stages(a) + Stages(b)
    decreases |a|
  {
    if |a| == 0 {
      assert a + b == b;
    } else {
      assert (a + b)[0] == a[0];
      assert (a + b)[1..] == a[1..] + b;
      StagesAppend(a[1..], b);
    }
  }

  /** The stages installed by `Uses(c)` are `c` itself. */
  lemma {:induction false} StagesOfUses(c: seq<Middleware>)
    ensures Stages(Uses(c)) == c
    decreases |c|
  {
    if |c| > 0 {
      assert Uses(c)[1..] == Uses(c[1..]);
      StagesOfUses(c[1..]);
    }
  }

  /** A segment without `Use` steps installs no stage. */
  lemma {:induction false} StagesOfNoUse(t: seq<Step>)
    requires forall i :: 0 <= i < |t| ==> !t[i].Use?
    ensures Stages(t) == []
    decreases |t|
  {
    if |t| > 0 {
      StagesOfNoUse(t[1..]);
    }
  }

  /** The `initServices` calls a trace records, in call order. */
  function Events(t: seq<Step>): seq<Event>
  {
    if |t| == 0 then []
    else if t[0].ServiceCall? then [t[0].e] + Events(t[1..])
    else Events(t[1..])
  }

  /** `Events` distributes over concatenation. */
  lemma {:induction false} EventsAppend(a: seq<Step>, b: seq<Step>)
    ensures Events(a + b) == Events(a) + Events(b)
    decreases |a|
  {
    if |a| == 0 {
      assert a + b == b;
    } else {
      assert (a + b)[0] == a[0];
      assert (a + b)[1..] == a[1..] + b;
      EventsAppend(a[1..], b);
    }
  }

  /** The calls recorded by `Calls(t)` are `t` itself. */
  lemma {:induction false} EventsOfCalls(t: seq<Event>)
    ensures Events(Calls(t)) == t
    decreases |t|
  {
    if |t| > 0 {
      assert Calls(t)[1..] == Calls(t[1..]);
      EventsOfCalls(t[1..]);
    }
  }

  /** A segment without service calls records none. */
  lemma {:induction false} EventsOfNoCall(t: seq<Step>)
    requires forall i :: 0 <= i < |t| ==> !t[i].ServiceCall?
    ensures Events(t) == []
    decreases |t|
  {
    if |t| > 0 {
      EventsOfNoCall(t[1..]);
    }
  }

  /** A segment wholly after the `initServices` phase records no call. */
  lemma EventsAfterCalls(t: seq<Step>, lo: nat, hi: nat)
    requires PhasesWithin(t, lo, hi) && 2 < lo
    ensures Events(t) == []
  {
    EventsOfNoCall(t);
  }

  /** A start-up trace records exactly the calls of its `initServices` run, in order. */
  lemma StartupEvents(flags: Flags, run: Run, agentErr: Outcome)
    ensures Events(Startup(flags, run, agentErr)) == run.trace
  {
    var prefix := SetupSteps + Calls(run.trace);
    EventsOfNoCall(SetupSteps);
    EventsOfCalls(run.trace);
    EventsAppend(SetupSteps, Calls(run.trace));
    match run.err
    case Err(e) =>
      EventsOfNoCall([Panic(e)]);
      EventsAppend(prefix, [Panic(e)]);
    case Ok =>
      ServeStepsOrdered(flags, agentErr);
      EventsAfterCalls(ServeSteps(flags, agentErr), 3, 6);
      EventsAppend(prefix, ServeSteps(flags, agentErr));
  }

  /**
   * Property: the service-call steps of the start-up trace are exactly the
   * calls `initServices` makes, in the order it makes them.
   */
  lemma ServiceCallsRecorded(flags: Flags, mgrErr: Outcome, outcomes: seq<Outcome>, agentErr: Outcome)
    requires |outcomes| == |AllServices|
    ensures Events(DispatcherAction(flags, mgrErr, outcomes, agentErr)) == InitServices(mgrErr, outcomes).trace
  {
    StartupEvents(flags, InitServices(mgrErr, outcomes), agentErr);
  }

  /** Swagger generation lies in phase 3. */
  lemma SwaggerStepsWithin(flags: Flags)
    ensures PhasesWithin(SwaggerSteps(flags), 3, 3)
  {
  }

  /** After a failed run, the trace ends in the panic, and every earlier step precedes `initServices`' return. */
  lemma StartupPanics(flags: Flags, run: Run, agentErr: Outcome)
    requires run.err.Err?
    ensures var t := Startup(flags, run, agentErr);
            && t[|t| - 1] == Panic(run.err.error)
            && forall s :: s in t ==> Phase(s) <= 2 || s == Panic(run.err.error)
  {
  }

  /**
   * Property: an `initServices` error panics with that error, and nothing after
   * it runs — no Swagger, no negroni stage, no agent, no listener.
   */
  lemma InitErrorPanics(flags: Flags, mgrErr: Outcome, outcomes: seq<Outcome>, agentErr: Outcome)
    requires |outcomes| == |AllServices|
    requires !Composes(mgrErr, outcomes)
    ensures var t := DispatcherAction(flags, mgrErr, outcomes, agentErr);
            && t[|t| - 1] == Panic(InitServices(mgrErr, outcomes).err.error)
            && (forall s :: s in t ==> s.AddFilter? || s.DisableContainerRecovery? || s.ServiceCall? || s.Panic?)
  {
    StartupPanics(flags, InitServices(mgrErr, outcomes), agentErr);
  }

  /** The stages the serving tail installs: the whole `Chain`. */
  lemma ServeStages(flags: Flags, agentErr: Outcome)
    ensures Stages(ServeSteps(flags, agentErr)) == Chain(flags.debug, flags.frontendOff, flags.frontend)
  {
    var c := Chain(flags.debug, flags.frontendOff, flags.frontend);
    var tail := AgentSteps(flags.withAgent, agentErr) + [Listen(flags.bindAddr)];
    StagesOfNoUse(SwaggerSteps(flags));
    StagesOfNoUse(tail);
    StagesOfUses(c);
    assert AfterSwagger(flags, agentErr) == Uses(c) + tail;
    StagesAppend(Uses(c), tail);
    StagesAppend(SwaggerSteps(flags), AfterSwagger(flags, agentErr));
  }

  /** The stages a start-up trace installs: the whole `Chain` after a successful run, none otherwise. */
  lemma StartupStages(flags: Flags, run: Run, agentErr: Outcome)
    ensures Stages(Startup(flags, run, agentErr))
              == (if run.err.Ok? then Chain(flags.debug, flags.frontendOff, flags.frontend) else [])
  {
    var prefix := SetupSteps + Calls(run.trace);
    StagesOfNoUse(prefix);
    match run.err
    case Err(e) =>
      StagesOfNoUse([Panic(e)]);
      StagesAppend(prefix, [Panic(e)]);
    case Ok =>
      ServeStages(flags, agentErr);
      StagesAppend(prefix, ServeSteps(flags, agentErr));
  }

  /**
   * Property: the negroni stages installed are exactly the stack `ChainSpec`
   * describes — logger only in debug mode and then outermost, recovery printing
   * stacks only in debug mode, static files unless the frontend is off, the
   * container last — and none at all when `initServices` fails.
   */
  lemma MiddlewareStack(flags: Flags, mgrErr: Outcome, outcomes: seq<Outcome>, agentErr: Outcome)
    requires |outcomes| == |AllServices|
    ensures var stages := Stages(DispatcherAction(flags, mgrErr, outcomes, agentErr));
            && (Composes(mgrErr, outcomes) ==> ChainSpec(flags.debug, flags.frontendOff, flags.frontend, stages))
            && (!Composes(mgrErr, outcomes) ==> stages == [])
  {
    StartupStages(flags, InitServices(mgrErr, outcomes), agentErr);
  }

  /** The serving tail, segment by segment. */
  lemma ServeParts(flags: Flags, agentErr: Outcome)
    ensures var c := Chain(flags.debug, flags.frontendOff, flags.frontend);
            ServeSteps(flags, agentErr)
              == SwaggerSteps(flags) + Uses(c) + AgentSteps(flags.withAgent, agentErr) + [Listen(flags.bindAddr)]
  {
  }

  /** A step occurs in a trace exactly when it is counted there. */
  lemma OccursWhenCounted(t: seq<Step>, s: Step)
    ensures s in t <==> multiset(t)[s] > 0
  {
  }

  /** A step absent from a prefix is counted in the rest alone. */
  lemma CountAfter(a: seq<Step>, b: seq<Step>, s: Step)
    requires s !in a
    ensures multiset(a + b)[s] == multiset(b)[s]
  {
    assert multiset(a + b) == multiset(a) + multiset(b);
  }

  /** A step absent from a suffix is counted in the part before it alone. */
  lemma CountBefore(a: seq<Step>, b: seq<Step>, s: Step)
    requires s !in b
    ensures multiset(a + b)[s] == multiset(a)[s]
  {
    assert multiset(a + b) == multiset(a) + multiset(b);
  }

  /** Steps absent from the outer segments are counted in the middle one alone. */
  lemma CountMiddle(a: seq<Step>, b: seq<Step>, c: seq<Step>, s: Step)
    requires s !in a && s !in c
    ensures multiset(a + b + c)[s] == multiset(b)[s]
    ensures s in a + b + c <==> s in b
  {
    assert multiset(a + b + c) == multiset(a) + multiset(b) + multiset(c);
  }

  /** The agent is started once when asked to, and never otherwise. */
  lemma AgentStartCount(withAgent: bool, agentErr: Outcome)
    ensures multiset(AgentSteps(withAgent, agentErr))[StartAgent] == (if withAgent then 1 else 0)
  {
  }

  /** The serving tail starts the agent as often as `AgentSteps` does: Swagger, the stack and the listener never do. */
  lemma ServeAgentCount(flags: Flags, agentErr: Outcome)
    ensures multiset(ServeSteps(flags, agentErr))[StartAgent] == (if flags.withAgent then 1 else 0)
  {
    var c := Chain(flags.debug, flags.frontendOff, flags.frontend);
    var a := AgentSteps(flags.withAgent, agentErr);
    SwaggerStepsWithin(flags);
    UsesOrdered(c);
    ServeParts(flags, agentErr);
    NotIn(SwaggerSteps(flags), StartAgent, 3, 3);
    NotIn(Uses(c), StartAgent, 4, 4);
    CountMiddle(SwaggerSteps(flags) + Uses(c), a, [Listen(flags.bindAddr)], StartAgent);
    AgentStartCount(flags.withAgent, agentErr);
  }

  /** The serving tail logs an agent error exactly when `AgentSteps` does. */
  lemma ServeAgentLog(flags: Flags, agentErr: Outcome)
    ensures forall e :: LogAgentError(e) in ServeSteps(flags, agentErr) <==> flags.withAgent && agentErr == Err(e)
  {
    var c := Chain(flags.debug, flags.frontendOff, flags.frontend);
    var a := AgentSteps(flags.withAgent, agentErr);
    SwaggerStepsWithin(flags);
    UsesOrdered(c);
    ServeParts(flags, agentErr);
    forall e ensures LogAgentError(e) in ServeSteps(flags, agentErr) <==> LogAgentError(e) in a {
      NotIn(SwaggerSteps(flags), LogAgentError(e), 3, 3);
      NotIn(Uses(c), LogAgentError(e), 4, 4);
      CountMiddle(SwaggerSteps(flags) + Uses(c), a, [Listen(flags.bindAddr)], LogAgentError(e));
    }
  }

  /** The agent steps of a start-up trace: present exactly after a successful run with the agent asked for. */
  lemma StartupAgent(flags: Flags, run: Run, agentErr: Outcome)
    ensures var t := Startup(flags, run, agentErr);
            && multiset(t)[StartAgent] == (if run.err.Ok? && flags.withAgent then 1 else 0)
            && (forall e :: LogAgentError(e) in t <==> run.err.Ok? && flags.withAgent && agentErr == Err(e))
  {
    var prefix := SetupSteps + Calls(run.trace);
    ComposedWithin(run);
    NotIn(prefix, StartAgent, 0, 2);
    assert multiset(prefix)[StartAgent] == 0;
    forall e ensures LogAgentError(e) !in prefix {
      NotIn(prefix, LogAgentError(e), 0, 2);
    }
    match run.err
    case Err(e) =>
      assert Startup(flags, run, agentErr) == prefix + [Panic(e)];
    case Ok =>
      assert Startup(flags, run, agentErr) == prefix + ServeSteps(flags, agentErr);
      ServeAgentCount(flags, agentErr);
      ServeAgentLog(flags, agentErr);
  }

  /** The listener step of a start-up trace: last, on `bind-addr`, exactly after a successful run. */
  lemma StartupListen(flags: Flags, run: Run, agentErr: Outcome)
    ensures var t := Startup(flags, run, agentErr);
            && (forall a :: Listen(a) in t <==> run.err.Ok? && a == flags.bindAddr)
            && (run.err.Ok? ==> t[|t| - 1] == Listen(flags.bindAddr))
  {
  }

  /** Every stage of `t` is installed before any agent start. */
  predicate StackBeforeAgent(t: seq<Step>)
  {
    forall i, j :: 0 <= i < |t| && 0 <= j < |t| && t[i].Use? && t[j].StartAgent? ==> i < j
  }

  /** In a phase-ordered trace, every stage is installed before any agent start. */
  lemma UsesBeforeAgent(t: seq<Step>)
    requires PhaseOrdered(t)
    ensures StackBeforeAgent(t)
  {
    forall i, j | 0 <= i < |t| && 0 <= j < |t| && t[i].Use? && t[j].StartAgent? ensures i < j {
      PhaseBefore(t, i, j);
    }
  }

  /** In every start-up trace, the agent is started only once the whole stack is installed. */
  lemma StartupAgentAfterStack(flags: Flags, run: Run, agentErr: Outcome)
    ensures var t := Startup(flags, run, agentErr);
            StackBeforeAgent(t)
  {
    StartupOrdered(flags, run, agentErr);
    UsesBeforeAgent(Startup(flags, run, agentErr));
  }

  /** In every start-up trace, the agent is started once after a successful run that asks for it, after the stack. */
  lemma StartupAgentOnce(flags: Flags, run: Run, agentErr: Outcome)
    ensures var t := Startup(flags, run, agentErr);
            && (StartAgent in t <==> run.err.Ok? && flags.withAgent)
            && multiset(t)[StartAgent] == (if run.err.Ok? && flags.withAgent then 1 else 0)
            && StackBeforeAgent(t)
  {
    StartupAgent(flags, run, agentErr);
    OccursWhenCounted(Startup(flags, run, agentErr), StartAgent);
    StartupAgentAfterStack(flags, run, agentErr);
  }

  /**
   * Property: the agent is started, once, exactly when `with-agent` is set and
   * `initServices` succeeded, and only after the whole stack is installed.
   */
  lemma AgentOnlyWhenAsked(flags: Flags, mgrErr: Outcome, outcomes: seq<Outcome>, agentErr: Outcome)
    requires |outcomes| == |AllServices|
    ensures var t := DispatcherAction(flags, mgrErr, outcomes, agentErr);
            && (StartAgent in t <==> Composes(mgrErr, outcomes) && flags.withAgent)
            && multiset(t)[StartAgent] == (if Composes(mgrErr, outcomes) && flags.withAgent then 1 else 0)
            && StackBeforeAgent(t)
  {
    StartupAgentOnce(flags, InitServices(mgrErr, outcomes), agentErr);
  }

  /**
   * Property: the server listens, on `bind-addr`, exactly when `initServices`
   * succeeded, as the very last step, whatever the agent's start-up outcome.
   */
  lemma ListensDespiteAgentFailure(flags: Flags, mgrErr: Outcome, outcomes: seq<Outcome>, agentErr: Outcome)
    requires |outcomes| == |AllServices|
    ensures var t := DispatcherAction(flags, mgrErr, outcomes, agentErr);
            && (forall a :: Listen(a) in t <==> Composes(mgrErr, outcomes) && a == flags.bindAddr)
            && (Composes(mgrErr, outcomes) ==> t[|t| - 1] == Listen(flags.bindAddr))
  {
    StartupListen(flags, InitServices(mgrErr, outcomes), agentErr);
  }

  /**
   * Property: an agent start-up failure is only logged, and only when the agent
   * was started; it does not stop start-up, which still ends by listening.
   */
  lemma AgentFailureOnlyLogged(flags: Flags, mgrErr: Outcome, outcomes: seq<Outcome>, agentErr: Outcome)
    requires |outcomes| == |AllServices|
    ensures var t := DispatcherAction(flags, mgrErr, outcomes, agentErr);
            && (forall e :: LogAgentError(e) in t <==> Composes(mgrErr, outcomes) && flags.withAgent && agentErr == Err(e))
            && (Composes(mgrErr, outcomes) ==> t[|t| - 1] == Listen(flags.bindAddr))
  {
    var run := InitServices(mgrErr, outcomes);
    var t := DispatcherAction(flags, mgrErr, outcomes, agentErr);
    assert t == Startup(flags, run, agentErr);
    StartupAgent(flags, run, agentErr);
  }
}

=== FILE: lifecycle.dfy ===
/**
 * The two-phase, fail-fast service lifecycle of `initServices`: the manager is
 * initialised first, then every service's `Init` runs in the fixed order and the
 * first error aborts; only when all of them succeed is `Register` called on each
 * service, in the same order.
 *
 * The outcomes of the external `Init` calls are an oracle: one optional error for
 * the manager and one per service, in the order of `AllServices`.
 */
module Lifecycle {
  import opened Services

  /** A call `initServices` makes on a collaborator. */
  datatype Event = MgrInit | Init(s: Service) | Register(s: Service)

  /** What one run of `initServices` did: the calls in order, and the error it returned. */
  datatype Run = Run(trace: seq<Event>, err: Outcome)

  /** Every `Init` call in the oracle succeeds. */
  predicate AllSucceed(outcomes: seq<Outcome>)
  {
    forall i :: 0 <= i < |outcomes| ==> outcomes[i].Ok?
  }

  /** The position of the first failing `Init`. */
  function FirstFailure(outcomes: seq<Outcome>): (k: nat)
    requires !AllSucceed(outcomes)
    ensures k < |outcomes| && outcomes[k].Err?
    ensures forall j :: 0 <= j < k ==> outcomes[j].Ok?
  {
    if outcomes[0].Err? then 0 else 1 + FirstFailure(outcomes[1..])
  }

  /** Reference trace: `Init` on each of `svcs`, in order. */
  function Inits(svcs: seq<Service>): seq<Event>
  {
    seq(|svcs|, i requires 0 <= i < |svcs| => Init(svcs[i]))
  }

  /** Reference trace: `Register` on each of `svcs`, in order. */
  function Registers(svcs: seq<Service>): seq<Event>
  {
    seq(|svcs|, i requires 0 <= i < |svcs| => Register(svcs[i]))
  }

  /**
   * The first loop of `initServices`: call `Init` on each service in turn and
   * return the first error. The trace holds the `Init` calls of exactly the
   * services up to and including the one that failed.
   */
  function InitLoop(svcs: seq<Service>, outcomes: seq<Outcome>): (r: Run)
    requires |outcomes| == |svcs|
    ensures r.err.Ok? <==> AllSucceed(outcomes)
    ensures r.err.Ok? ==> r.trace == Inits(svcs)
    ensures r.err.Err? ==>
              && r.err == outcomes[FirstFailure(outcomes)]
              && r.trace == Inits(svcs[..FirstFailure(outcomes) + 1])
    decreases |svcs|
  {
    if |svcs| == 0 then Run([], Ok)
    else if outcomes[0].Err? then
      assert Inits(svcs[..1]) == [Init(svcs[0])];
      Run([Init(svcs[0])], outcomes[0])
    else
      var rest := InitLoop(svcs[1..], outcomes[1..]);
      assert AllSucceed(outcomes) <==> AllSucceed(outcomes[1..]) by {
        if AllSucceed(outcomes[1..]) {
          forall i | 0 <= i < |outcomes| ensures outcomes[i].Ok? {
            if i > 0 { assert outcomes[i] == outcomes[1..][i - 1]; }
          }
        }
      }
      if rest.err.Err? then
        var k := FirstFailure(outcomes[1..]);
        assert FirstFailure(outcomes) == k + 1;
        assert svcs[1..][..k + 1] == svcs[1..k + 2];
        assert [Init(svcs[0])] + Inits(svcs[1..k + 2]) == Inits(svcs[..k + 2]);
        Run([Init(svcs[0])] + rest.trace, rest.err)
      else
        assert [Init(svcs[0])] + Inits(svcs[1..]) == Inits(svcs);
        Run([Init(svcs[0])] + rest.trace, rest.err)
  }

  /** The second loop of `initServices`: `Register` each service in turn; it cannot fail. */
  function RegisterLoop(svcs: seq<Service>): (t: seq<Event>)
    ensures t == Registers(svcs)
    decreases |svcs|
  {
    if |svcs| == 0 then []
    else
      var rest := RegisterLoop(svcs[1..]);
      assert [Register(svcs[0])] + Registers(svcs[1..]) == Registers(svcs);
      [Register(svcs[0])] + rest
  }

  /**
   * The body of `initServices` over a service list: initialise the manager, then
   * run the `Init` loop, then — only if nothing failed — the `Register` loop.
   */
  function Compose(svcs: seq<Service>, mgrErr: Outcome, outcomes: seq<Outcome>): (r: Run)
    requires |outcomes| == |svcs|
    ensures r.err.Ok? <==> Composes(mgrErr, outcomes)
    ensures |r.trace| > 0 && r.trace[0] == MgrInit
  {
    if mgrErr.Err? then Run([MgrInit], mgrErr)
    else
      var init := InitLoop(svcs, outcomes);
      if init.err.Err? then Run([MgrInit] + init.trace, init.err)
      else Run([MgrInit] + init.trace + RegisterLoop(svcs), Ok)
  }

  /** `initServices`: the lifecycle over the nine services in their fixed order. */
  function InitServices(mgrErr: Outcome, outcomes: seq<Outcome>): (r: Run)
    requires |outcomes| == |AllServices|
    ensures r.err.Ok? <==> Composes(mgrErr, outcomes)
    ensures |r.trace| > 0 && r.trace[0] == MgrInit
  {
    Compose(AllServices, mgrErr, outcomes)
  }

  /**
   * The full trace over any service list: the manager's `Init` alone when it
   * fails; otherwise `Init` on the services up to the first failure; otherwise
   * `Init` on all of them followed by `Register` on all of them, in the same order.
   */
  lemma ComposeTrace(svcs: seq<Service>, mgrErr: Outcome, outcomes: seq<Outcome>)
    requires |outcomes| == |svcs|
    ensures var r := Compose(svcs, mgrErr, outcomes);
            && (mgrErr.Err? ==> r == Run([MgrInit], mgrErr))
            && (mgrErr.Ok? && AllSucceed(outcomes) ==>
                  r == Run([MgrInit] + Inits(svcs) + Registers(svcs), Ok))
            && (mgrErr.Ok? && !AllSucceed(outcomes) ==>
                  var k := FirstFailure(outcomes);
                  r == Run([MgrInit] + Inits(svcs[..k + 1]), outcomes[k]))
  {
  }

  /** The full trace of `initServices` over the nine services. */
  lemma InitServicesTrace(mgrErr: Outcome, outcomes: seq<Outcome>)
    requires |outcomes| == |AllServices|
    ensures var r := InitServices(mgrErr, outcomes);
            && (mgrErr.Err? ==> r == Run([MgrInit], mgrErr))
            && (mgrErr.Ok? && AllSucceed(outcomes) ==>
                  r == Run([MgrInit] + Inits(AllServices) + Registers(AllServices), Ok))
            && (mgrErr.Ok? && !AllSucceed(outcomes) ==>
                  var k := FirstFailure(outcomes);
                  r == Run([MgrInit] + Inits(AllServices[..k + 1]), outcomes[k]))
  {
    ComposeTrace(AllServices, mgrErr, outcomes);
  }

  /** In any trace, the call at position `i > 0`, if it is an `Init`, is on the `i`-th service, at most the failing one. */
  lemma InitPositions(svcs: seq<Service>, mgrErr: Outcome, outcomes: seq<Outcome>)
    requires |outcomes| == |svcs|
    ensures var t := Compose(svcs, mgrErr, outcomes).trace;
            forall i :: 0 < i < |t| && t[i].Init? ==>
              && t[i] == Init(svcs[i - 1])
              && (!AllSucceed(outcomes) ==> i - 1 <= FirstFailure(outcomes))
  {
  }

  /** `InitServices` returns nil exactly when the manager and every service initialised. */
  predicate Composes(mgrErr: Outcome, outcomes: seq<Outcome>)
  {
    mgrErr.Ok? && AllSucceed(outcomes)
  }

  /** `Inits` and `Registers` split off their first call. */
  lemma UnfoldTraces(svcs: seq<Service>)
    requires |svcs| > 0
    ensures Inits(svcs) == [Init(svcs[0])] + Inits(svcs[1..])
    ensures Registers(svcs) == [Register(svcs[0])] + Registers(svcs[1..])
  {
  }

  /** Over distinct services, each service is initialised (or registered) once if listed, never otherwise. */
  lemma {:induction false} CountCalls(svcs: seq<Service>, s: Service)
    requires Distinct(svcs)
    ensures multiset(Inits(svcs))[Init(s)] == (if s in svcs then 1 else 0)
    ensures multiset(Inits(svcs))[Register(s)] == 0
    ensures multiset(Registers(svcs))[Register(s)] == (if s in svcs then 1 else 0)
    ensures multiset(Registers(svcs))[Init(s)] == 0
  {
    if |svcs| > 0 {
      UnfoldTraces(svcs);
      assert Distinct(svcs[1..]) by {
        forall i, j | 0 <= i < |svcs[1..]| && 0 <= j < |svcs[1..]| && svcs[1..][i] == svcs[1..][j]
          ensures i == j
        {
          assert svcs[i + 1] == svcs[j + 1];
        }
      }
      CountCalls(svcs[1..], s);
      assert svcs == [svcs[0]] + svcs[1..];
    }
  }

  /** Property: if the manager's `Init` fails, that error is returned and no service is touched. */
  lemma ManagerFailureAborts(mgrErr: Outcome, outcomes: seq<Outcome>)
    requires |outcomes| == |AllServices|
    requires mgrErr.Err?
    ensures InitServices(mgrErr, outcomes).err == mgrErr
    ensures forall e :: e in InitServices(mgrErr, outcomes).trace ==> e == MgrInit
  {
    InitServicesTrace(mgrErr, outcomes);
  }

  /**
   * Property: services are initialised in the fixed order — the call at position
   * `i` of any trace, if it is an `Init`, is on the `i`-th service — and never
   * past the first failing one.
   */
  lemma InitFollowsFixedOrder(mgrErr: Outcome, outcomes: seq<Outcome>)
    requires |outcomes| == |AllServices|
    ensures var t := InitServices(mgrErr, outcomes).trace;
            forall i :: 0 < i < |t| && t[i].Init? ==>
              && t[i] == Init(AllServices[i - 1])
              && (!AllSucceed(outcomes) ==> i - 1 <= FirstFailure(outcomes))
  {
    InitPositions(AllServices, mgrErr, outcomes);
  }

  /** Property: the error returned is the first one met — the manager's, else the first failing service's. */
  lemma FirstErrorWins(mgrErr: Outcome, outcomes: seq<Outcome>)
    requires |outcomes| == |AllServices|
    ensures var r := InitServices(mgrErr, outcomes);
            && (r.err.Ok? <==> Composes(mgrErr, outcomes))
            && (mgrErr.Err? ==> r.err == mgrErr)
            && (mgrErr.Ok? && !AllSucceed(outcomes) ==> r.err == outcomes[FirstFailure(outcomes)])
  {
    InitServicesTrace(mgrErr, outcomes);
  }

  /** A prefix of distinct services is distinct. */
  lemma DistinctPrefix(svcs: seq<Service>, n: nat)
    requires Distinct(svcs) && n <= |svcs|
    ensures Distinct(svcs[..n])
  {
  }

  /** Call counts in the trace of a successful run over distinct services. */
  lemma CountComposed(svcs: seq<Service>, s: Service)
    requires Distinct(svcs) && s in svcs
    ensures var t := [MgrInit] + Inits(svcs) + Registers(svcs);
            multiset(t)[Register(s)] == 1 && multiset(t)[Init(s)] == 1
  {
    CountCalls(svcs, s);
    var t := [MgrInit] + Inits(svcs) + Registers(svcs);
    assert multiset(t) == multiset([MgrInit]) + multiset(Inits(svcs)) + multiset(Registers(svcs));
  }

  /** No `Register` call in the trace of an aborted run over distinct services. */
  lemma NoRegisterInAborted(svcs: seq<Service>, s: Service)
    requires Distinct(svcs)
    ensures Register(s) !in [MgrInit] + Inits(svcs)
  {
    CountCalls(svcs, s);
    assert multiset([MgrInit] + Inits(svcs)) == multiset([MgrInit]) + multiset(Inits(svcs));
  }

  /**
   * Property: `Register` happens only in a run where every `Init` succeeded, and
   * then exactly once per service, as does `Init`.
   */
  lemma {:induction false} RegisterOnlyAfterFullInit(mgrErr: Outcome, outcomes: seq<Outcome>, s: Service)
    requires |outcomes| == |AllServices|
    ensures var t := InitServices(mgrErr, outcomes).trace;
            && (Register(s) in t <==> Composes(mgrErr, outcomes))
            && (Composes(mgrErr, outcomes) ==>
                  multiset(t)[Register(s)] == 1 && multiset(t)[Init(s)] == 1)
  {
    InitServicesTrace(mgrErr, outcomes);
    AllServicesComplete(s);
    if Composes(mgrErr, outcomes) {
      CountComposed(AllServices, s);
    } else if mgrErr.Ok? {
      var k := FirstFailure(outcomes);
      DistinctPrefix(AllServices, k + 1);
      NoRegisterInAborted(AllServices[..k + 1], s);
    }
  }

  /** Over any service list, no `Init` or manager call follows a `Register` call. */
  lemma RegistersLast(svcs: seq<Service>, mgrErr: Outcome, outcomes: seq<Outcome>)
    requires |outcomes| == |svcs|
    ensures var t := Compose(svcs, mgrErr, outcomes).trace;
            forall i, j :: 0 <= i < |t| && 0 <= j < |t| && t[j].Register? && !t[i].Register? ==> i < j
  {
  }

  /** Property: in every trace, the manager and all `Init` calls come before every `Register` call. */
  lemma InitsPrecedeRegisters(mgrErr: Outcome, outcomes: seq<Outcome>)
    requires |outcomes| == |AllServices|
    ensures var t := InitServices(mgrErr, outcomes).trace;
            forall i, j :: 0 <= i < |t| && 0 <= j < |t| && t[j].Register? && !t[i].Register? ==> i < j
  {
    RegistersLast(AllServices, mgrErr, outcomes);
  }
}

=== FILE: pipeline.dfy ===
/**
 * The request pipeline `dispatcherAction` assembles: the go-restful container
 * filters, and the negroni middleware stack that wraps the container.
 */
module Pipeline {

  /** Options of the session cookie; `secure` is left at its zero value, false. */
  datatype CookieOpts = CookieOpts(path: string, httpOnly: bool, secure: bool)

  /** A container filter: runs on every request before route dispatch, in the order added. */
  datatype Filter =
    | SessionCookie(name: string, opts: CookieOpts, hashKey: string, encKey: string)
    | MongoScope

  const SessionCookieName: string := "bearded-sss"
  const SessionPath: string := "/api/"
  /** The fixed signing key of the session cookie. */
  const HashKey: string := "12345678901234567890123456789012"
  /** The fixed encryption key of the session cookie. */
  const EncKey: string := "12345678901234567890123456789012"

  /** The session filter exactly as the dispatcher configures it. */
  const SessionFilter: Filter :=
    SessionCookie(SessionCookieName, CookieOpts(SessionPath, true, false), HashKey, EncKey)

  /**
   * The container filters in the order `dispatcherAction` adds them: the session
   * cookie filter on `/api/`, HTTP-only, with two 32-byte keys; then the mongo filter.
   */
  function ContainerFilters(): (fs: seq<Filter>)
    ensures |fs| == 2
    ensures fs[0].SessionCookie? && fs[0].name == "bearded-sss"
    ensures fs[0].opts.path == "/api/" && fs[0].opts.httpOnly && !fs[0].opts.secure
    ensures |fs[0].hashKey| == 32 && |fs[0].encKey| == 32
    ensures fs[1] == MongoScope
  {
    [SessionFilter, MongoScope]
  }

  /**
   * A negroni stage. `Recovery.printStack` is whether a panic's stack is
   * written into the response; `Static.dir` is the directory served.
   */
  datatype Middleware = Logger | Recovery(printStack: bool) | Static(dir: string) | Container

  /** Position of a stage kind in the pipeline, outermost first. */
  function Rank(m: Middleware): nat
  {
    match m
    case Logger => 0
    case Recovery(_) => 1
    case Static(_) => 2
    case Container => 3
  }

  /** Stages strictly increase in rank: the kinds appear in the order above, each at most once. */
  predicate RankSorted(c: seq<Middleware>)
  {
    forall i, j :: 0 <= i < j < |c| ==> Rank(c[i]) < Rank(c[j])
  }

  /**
   * Independent description of the stack: ordered by rank; a logger exactly in
   * debug mode; a recovery whose stack printing is on exactly in debug mode; the
   * frontend directory served exactly when the frontend is on; the container last.
   */
  predicate ChainSpec(debug: bool, frontendOff: bool, frontend: string, c: seq<Middleware>)
  {
    && RankSorted(c)
    && (Logger in c <==> debug)
    && Recovery(debug) in c
    && Recovery(!debug) !in c
    && (Static(frontend) in c <==> !frontendOff)
    && (forall i :: 0 <= i < |c| && c[i].Static? ==> c[i].dir == frontend)
    && Container in c
  }

  /**
   * The negroni stack of `dispatcherAction`, outermost first: in debug mode the
   * logger is `Use`d first, so it wraps recovery; recovery prints stacks only in
   * debug mode; the static handler is present unless the frontend is off; the
   * container is the final handler. negroni's `NewRecovery` starts with stack
   * printing on, and only the non-debug branch turns it off, so `printStack`
   * equals `debug`.
   */
  function Chain(debug: bool, frontendOff: bool, frontend: string): (c: seq<Middleware>)
    ensures ChainSpec(debug, frontendOff, frontend, c)
  {
    var recovery := Recovery(printStack := debug);
    var stack := if frontendOff then [recovery, Container] else [recovery, Static(frontend), Container];
    assert RankSorted(stack) && forall m :: m in stack ==> 1 <= Rank(m);
    LoggerOnTop(stack);
    var c := if debug then [Logger] + stack else stack;
    assert RankSorted(c);
    assert Recovery(!debug) !in c;
    assert forall i :: 0 <= i < |c| && c[i].Static? ==> c[i].dir == frontend;
    c
  }

  /** Putting the logger on top of a logger-free rank-sorted stack keeps it rank-sorted. */
  lemma LoggerOnTop(stack: seq<Middleware>)
    requires RankSorted(stack) && forall m :: m in stack ==> 1 <= Rank(m)
    ensures RankSorted([Logger] + stack)
    ensures forall m :: m in [Logger] + stack <==> m == Logger || m in stack
  {
    forall i, j | 0 <= i < j < |[Logger] + stack| ensures Rank(([Logger] + stack)[i]) < Rank(([Logger] + stack)[j]) {
      assert ([Logger] + stack)[j] == stack[j - 1];
      if i > 0 {
        assert ([Logger] + stack)[i] == stack[i - 1];
      }
    }
  }

  /** The head of a rank-sorted stack has the least rank, and is the only stage of that rank. */
  lemma HeadHasLeastRank(c: seq<Middleware>, m: Middleware)
    requires RankSorted(c) && m in c
    ensures Rank(c[0]) <= Rank(m)
    ensures Rank(m) == Rank(c[0]) ==> m == c[0]
  {
    var i :| 0 <= i < |c| && c[i] == m;
    assert i == 0 || Rank(c[0]) < Rank(c[i]);
  }

  /** Two rank-sorted stacks with the same stages are the same stack. */
  lemma {:induction false} RankSortedUnique(a: seq<Middleware>, b: seq<Middleware>)
    requires RankSorted(a) && RankSorted(b)
    requires forall m :: m in a <==> m in b
    ensures a == b
    decreases |a|
  {
    assert |a| > 0 ==> a[0] in a;
    assert |b| > 0 ==> b[0] in b;
    if |a| > 0 {
      HeadHasLeastRank(a, b[0]);
      HeadHasLeastRank(b, a[0]);
      forall m ensures m in a[1..] <==> m in b[1..] {
        if m in a[1..] {
          var i :| 0 <= i < |a[1..]| && a[1..][i] == m;
          assert Rank(a[0]) < Rank(a[i + 1]);
          assert m in b;
        }
        if m in b[1..] {
          var i :| 0 <= i < |b[1..]| && b[1..][i] == m;
          assert Rank(b[0]) < Rank(b[i + 1]);
          assert m in a;
        }
      }
      RankSortedUnique(a[1..], b[1..]);
      assert a == [a[0]] + a[1..];
      assert b == [b[0]] + b[1..];
    }
  }

  /** The description determines the stack: `Chain` is the only stack that meets it. */
  lemma ChainIsUnique(debug: bool, frontendOff: bool, frontend: string, c: seq<Middleware>)
    ensures ChainSpec(debug, frontendOff, frontend, c) <==> c == Chain(debug, frontendOff, frontend)
  {
    if ChainSpec(debug, frontendOff, frontend, c) {
      var d := Chain(debug, frontendOff, frontend);
      forall m ensures m in c <==> m in d {
        match m
        case Logger =>
        case Recovery(p) =>
        case Static(dir) =>
          if m in c {
            var i :| 0 <= i < |c| && c[i] == m;
          }
        case Container =>
      }
      RankSortedUnique(c, d);
    }
  }

  /** Recovery is the outermost stage exactly when debug mode is off; the container is always innermost. */
  lemma RecoveryOutermostOnlyWhenQuiet(debug: bool, frontendOff: bool, frontend: string)
    ensures var c := Chain(debug, frontendOff, frontend);
            && (c[0].Recovery? <==> !debug)
            && c[|c| - 1] == Container
  {
  }
}

=== FILE: services.dfy ===
/** The nine business services the dispatcher composes, treated as black boxes. */
module Services {

  /** An error returned by an external collaborator; its content is opaque to the dispatcher. */
  datatype Error = Error(message: string)

  /** The result of a call that can fail: `Ok` is Go's `nil` error, `Err` carries a non-nil one. */
  datatype Outcome = Ok | Err(error: Error)

  /** One constructor per service package the dispatcher builds in `initServices`. */
  datatype Service = Auth | Plugin | Plan | User | Project | Target | Scan | Me | Agent

  /** The fixed order in which `initServices` builds, initialises and registers the services. */
  const AllServices: seq<Service> := [Auth, Plugin, Plan, User, Project, Target, Scan, Me, Agent]

  /** No service occurs twice in `svcs`. */
  predicate Distinct(svcs: seq<Service>)
  {
    forall i, j :: 0 <= i < |svcs| && 0 <= j < |svcs| && svcs[i] == svcs[j] ==> i == j
  }

  /** The service list names every service exactly once. */
  lemma AllServicesComplete(s: Service)
    ensures s in AllServices
    ensures Distinct(AllServices)
    ensures |AllServices| == 9
  {
  }
}
